=== FILE: README.md ===
# Sequencer fade and crossfade operators, modelled in Dafny

This project models the keyframe-planning logic of four video sequence
editor operators in `sequencer.py`:

- **Crossfade sounds** (`crossfade.dfy`, module `Crossfade`). It finds exactly
  two selected sound strips in the editor's top-level strip list and orders
  them by start frame. If they overlap, it keys the earlier strip's volume
  down to 0 and the later strip's volume up from 0 across the overlap.
- **Fade in/out** (`fade.dfy`, module `Fade`). It keys a fade in, a fade out,
  or both on the active strip. Sound strips are keyed on `volume`, every
  other strip on `blend_alpha`. The two playhead directions take the fade
  length from the current frame.
- **Deinterlace selected movies** (`deinterlace.dfy`, module `Deinterlace`).
  It sets the deinterlace flag on every selected movie strip.
- **Cut multicam** (`multicam.dfy`, module `Multicam`). The guard, the
  selection of the strip before the host's cut, and the camera assignment
  after it are modelled. The cut itself is not.

`timeline.dfy` (module `Timeline`) holds the shared data model. A `Scene` is
the strip list, the current frame and the keyframes inserted so far. The host
calls the operators make become pure functions on a `Scene`:

- `SetFrame` assigns `frame_current`. It is a cursor that each operator puts
  back at the end.
- `SetValue` assigns a strip's `volume` or `blend_alpha`.
- `InsertKey` models `keyframe_insert`. It appends a `Keyframe` recording the
  strip (by index), the property, the current frame and the property's
  current value.

Volumes, blend alphas and the fade amount are `real`s. The model only copies
them or sets them to 0, so no floating-point arithmetic is involved. Frames
are unbounded integers.

Each operation is paired with something independent of its body:

- The crossfade's selection loop is paired with a reference list of the
  selected sound strips (`SelectedSoundsUpTo`).
- The overlap test is paired with a symmetric interval-overlap predicate.
- The fade placement is paired with per-direction keyframe shapes and the
  ordering lemma.
- The deinterlace map is paired with its idempotence.
- The multicam guard is paired with a no-op re-run.

Behaviour of the code that the operator labels do not reveal (the Direction
labels at sequencer.py:242-246 read "Add fade in to playhead" and "Add fade out
from playhead"):

- The crossfade looks only at top-level strips (`sequences`). The deinterlace
  operator looks at every strip, including strips inside meta strips
  (`sequences_all`). `Strip.topLevel` records the difference.
- The two playhead directions are resolved only when the playhead is
  strictly inside the strip. Otherwise the direction stays "to/from
  playhead". Both then fall into the fade-in branch with the stored
  duration, so "fade from playhead" with the playhead outside the strip keys
  a fade **in** (`Fade.PlayheadOutsideFadesIn`).
- Every assignment to the operator's Duration property is clamped by the
  host into its declared range 1..250 (sequencer.py:251-256;
  `Fade.StoreDuration`). A playhead more than 250 frames from the strip's
  edge therefore gives a 250-frame fade that does not reach the playhead.
  On a sound strip shorter than two frames, the in-and-out clamp's
  `int(strip_dur/2)` is 0, which the bounds turn into 1. Its keys then go
  backwards (`Fade.SoundInOutOrdered`).
- Likewise the assignment to the Amount property (sequencer.py:147) is
  clamped into its declared range 0.0..1.0 (sequencer.py:259-266;
  `Fade.StoreAmount`). Every key the fade inserts carries that stored amount.
  The range lies inside the ranges of `volume` and `blend_alpha`, so the
  later writes of the amount to those properties keep it.
- Only the sound branch clamps a fade in and out to half the strip. The
  blend-alpha branch keeps the requested duration, and its keys can come out
  of frame order (`Fade.VisualInOutUnclamped`).
- The fade sets, rewrites and restores the operator instance's own `mode`
  attribute (sequencer.py:144, 153, 157, 219). It never writes the Direction
  property `fade_mode`, so the Direction the user chose is unchanged
  afterwards. `FadeProps.mode` is that attribute, and it ends equal to the
  chosen Direction. The observable result is the same as restoring the
  Direction.
- The fade does not put the duration back. The operator's Duration keeps
  the computed (playhead or clamped) length (`FadeOutcome.props`).
- The multicam operator returns FINISHED on both of its paths
  (sequencer.py:105, 117). `Multicam.MulticamStep` therefore carries no
  status.
- `int(strip_dur/2)` is true division followed by truncation toward zero
  (`Fade.TruncHalf`). It differs from Dafny's `/` on negative lengths.

## Model

| member | source | states |
|---|---|---|
| `Timeline.SetFrame` | sequencer.py:62 | moving the playhead sets the current frame and changes no strip and no keyframe |
| `Timeline.WithValue` | sequencer.py:193 | setting one animatable property of a strip sets it to the value and keeps the other property and every other field |
| `Timeline.SetValue` | sequencer.py:65 | assigning a strip's volume or blend alpha changes that property of that strip only; the frame, the keys and every other strip are kept |
| `Timeline.InsertKey` | sequencer.py:63 | `keyframe_insert` appends exactly one keyframe recording the strip, the property, the current frame and the property's current value; strips and frame are unchanged |
| `Crossfade.SelectedSoundsMembers` | sequencer.py:44-45 | the reference list holds exactly the indices of top-level strips that are both selected and of type SOUND |
| `Crossfade.Scan` | sequencer.py:42-52 | the selection loop only ever returns in-range indices, and it returns a second strip only together with an earlier first strip |
| `Crossfade.ScanFindsPair` | sequencer.py:42-55 | the loop yields a second strip iff there are exactly two selected sound strips, and then yields those two in list order; zero, one, or three or more give none, because a third match clears seq2 and breaks |
| `Crossfade.CrossfadeSounds` | sequencer.py:41-75 | cancels with "Select 2 sound strips" iff the count is not two; any cancellation leaves the scene untouched; the current frame is always restored and no strip is added or removed |
| `Crossfade.CrossfadeNeedsOverlap` | sequencer.py:56-75 | with two well-formed selected sound strips the operator finishes iff their frame ranges overlap, and otherwise cancels with the no-overlap error |
| `Crossfade.CrossfadeKeyframes` | sequencer.py:56-71 | a finished run orders the pair by start, keeping list order on a tie; it appends exactly four volume keys (first at second.start with its old volume, first at first.end with 0, second at first.end with its old volume, second at second.start with 0); it leaves both volumes at 0 and the frame restored |
| `Fade.StoreDuration` | sequencer.py:251-256 | a value written to Duration ends in 1..250: unchanged inside the range, the nearer bound outside it |
| `Fade.StoreAmount` | sequencer.py:259-266 | a value written to Amount ends in 0.0..1.0: unchanged inside the range, the nearer bound outside it |
| `Fade.PropertyFor` | sequencer.py:159-190 | sound strips are keyed on volume and every other strip type on blend alpha |
| `Fade.TruncHalf` | sequencer.py:170 | `int(x/2)` truncates toward zero: twice the result is within one of x, on x's side of zero |
| `Fade.ResolvePlayhead` | sequencer.py:149-157 | inside the strip, to-playhead becomes IN with the stored duration of playhead - start, so the fade ends at the playhead when that distance is at most 250; from-playhead likewise becomes OUT starting at the playhead; outside the strip, or for IN, OUT and in-and-out, the settings are unchanged |
| `Fade.ClampForSound` | sequencer.py:167-170 | sound in-and-out whose doubled duration exceeds the strip's length gets the stored value of int(length/2); every other case, including 2*d <= length, keeps the settings; on a strip of two or more frames the result fits twice into the strip |
| `Fade.KeyAt` | sequencer.py:161-163 | moving the playhead, assigning and keying records exactly one keyframe at that frame with the assigned value, leaves the playhead there and the strip at that value |
| `Fade.KeyFadeIn` | sequencer.py:184-189 | appends two keys on the strip's property: 0 at the strip's start, then the amount d frames later; the strip is left at the amount |
| `Fade.KeyFadeOut` | sequencer.py:160-166 | appends two keys on the strip's property: the amount d frames before the end, then 0 at the end; the strip is left at 0 |
| `Fade.PlaceKeys` | sequencer.py:159-217 | OUT appends a fall to 0 at the end, in-and-out a rise from the start followed by a fall to the end, any other mode a rise from the start; 4 keys for in-and-out and 2 otherwise, all on the given strip and property; the strip is left at its last keyed value |
| `Fade.FadeInOut` | sequencer.py:139-220 | always finishes; restores the mode attribute and current frame; the duration left behind is within 1..250 and the amount is the stored (clamped) amount; appends 4 keys for in-and-out and 2 otherwise, all on the active strip's faded property; leaves that strip at its last keyed value and every other strip unchanged |
| `Fade.FadeInKeys` | sequencer.py:183-189 | IN keys (start, 0) then (start + d, stored amount), d the stored duration (the given one when within 1..250), and leaves Duration at d |
| `Fade.FadeOutKeys` | sequencer.py:160-166 | OUT keys (end - d, stored amount) then (end, 0), d the stored duration, and leaves Duration at d |
| `Fade.FadeToPlayhead` | sequencer.py:149-153 | with the playhead strictly inside the strip, to-playhead keys (start, 0) and (start + d, stored amount) with d = playhead - start clamped to 250; that second key is at the playhead exactly when the distance is at most 250, and before it otherwise; Duration is left at d |
| `Fade.FadeFromPlayhead` | sequencer.py:154-157 | with the playhead strictly inside the strip, from-playhead keys (end - d, stored amount) and (end, 0) with d = end - playhead clamped to 250; the first key is at the playhead exactly when the distance is at most 250, and after it otherwise; Duration is left at d |
| `Fade.PlayheadOutsideFadesIn` | sequencer.py:149-158 | with the playhead not strictly inside the strip, both playhead directions leave the same scene as a plain fade in with the given duration |
| `Fade.SoundInOutOrdered` | sequencer.py:167-182 | sound in-and-out replaces the stored duration by the stored floor(length/2) exactly when twice it exceeds the length; it keys start, start+d, end-d, end with values 0, a, a, 0 (a the stored amount); those frames are non-decreasing iff the strip is at least two frames long |
| `Fade.VisualInOutUnclamped` | sequencer.py:198-210 | non-sound in-and-out keeps the stored duration, keys start, start+d, end-d, end on blend alpha, and puts the second key after the third when twice the duration exceeds the length |
| `Deinterlace.MarkSelectedMovies` | sequencer.py:132-134 | a strip ends deinterlaced iff it was deinterlaced already or is a selected movie; no other field of any strip changes |
| `Deinterlace.DeinterlaceSelectedMovies` | sequencer.py:131-136 | always finishes; every selected movie strip is deinterlaced; every other strip, the frame and the keys are unchanged |
| `Deinterlace.MarkSelectedMoviesIdempotent` | sequencer.py:132-134 | running the deinterlace pass twice gives the same strips as running it once |
| `Multicam.PrepareCut` | sequencer.py:99-110 | no-op iff the camera is the strip's current source or is at or above the strip's channel; otherwise the strip is selected for the cut at the current frame with nothing else changed |
| `Multicam.AssignCamera` | sequencer.py:116 | the strip active after the cut shows the chosen camera, and no other field of it changes |
| `Multicam.RepeatIsNoChange` | sequencer.py:104-116 | re-running with the same camera on the strip just switched hits the guard and changes nothing |

## Left out

- Operator registration, the `poll` class methods, `invoke` (creating the
  scene's animation data and action, showing the dialog) and the report
  messages' delivery. These are host runtime calls. The cancellation reasons
  are kept as `Error` values.
- The multicam operator's call to the host's cut operator and its search for
  the new active strip after the cut (sequencer.py:111-115). The cut's
  effects are not visible in this code. `Multicam.AssignCamera` models only
  the final assignment, for whichever strip the host left active.
- `FadeUpdate` (sequencer.py:223-228): it does nothing.
- Interpolation between keyframes and the host's animation system. In
  particular, moving the playhead does not re-evaluate animated volumes here.
  `keyframe_insert` always appends; the host's replacement of a key already at
  the same frame and property is not modelled.
- `Fade.FadeInOut`: requires an active strip. The source has no poll for this
  operator, so with no active strip it raises an attribute error; that path
  is not modelled.
- Bounds on the current frame: the host limits every write to
  `frame_current` to its absolute frame limits, and to non-negative frames
  unless negative frames are enabled. This is not modelled, neither for the
  crossfade's writes (sequencer.py:62-71) nor for the fade's
  (sequencer.py:161-217). Frames, including keyframe frames, are unbounded
  integers. Writes to Duration and Amount are clamped, as described above.
- `Crossfade.CrossfadeNeedsOverlap`: stated for well-formed strips (start
  before end, which the host guarantees). Without that, the source's one-sided
  test `seq1.end > seq2.start` need not agree with symmetric overlap.
- Strip identity: strips are referred to by their index in one flat list
  (top-level and meta contents together), not by object reference. The
  top-level strips are assumed to appear in that list in the same relative
  order as in `sequences` (sequencer.py:44); the crossfade's "list order"
  (its loop order, and its tie-break when both strips start together) is
  that order.

=== FILE: crossfade.dfy ===
/** The crossfade operator: animate the volumes of the two selected sound
    strips so that the earlier one fades out while the later one fades in
    across the frames where they overlap. */
module Crossfade {
  import opened Timeline

  /** A strip the operator's loop picks up: a selected sound strip of the
      editor's top-level strip list. */
  predicate IsSelectedSound(s: Strip) {
    s.topLevel && s.select && s.kind == Sound
  }

  /** Reference definition: the indices below `n` of selected sound strips,
      in list order. */
  function SelectedSoundsUpTo(strips: seq<Strip>, n: nat): (r: seq<nat>)
    requires n <= |strips|
    ensures forall j :: 0 <= j < |r| ==> r[j] < n
    ensures forall j, k :: 0 <= j < k < |r| ==> r[j] < r[k]
  {
    if n == 0 then []
    else
      var prefix := SelectedSoundsUpTo(strips, n - 1);
      if IsSelectedSound(strips[n - 1]) then prefix + [n - 1] else prefix
  }

  function SelectedSounds(strips: seq<Strip>): seq<nat> {
    SelectedSoundsUpTo(strips, |strips|)
  }

  /** The reference list holds exactly the selected sound strips. */
  lemma {:induction false} SelectedSoundsUpToMembers(strips: seq<Strip>, n: nat)
    requires n <= |strips|
    ensures forall k: nat :: k in SelectedSoundsUpTo(strips, n) <==> k < n && IsSelectedSound(strips[k])
  {
    if n > 0 {
      SelectedSoundsUpToMembers(strips, n - 1);
    }
  }

  lemma SelectedSoundsMembers(strips: seq<Strip>)
    ensures forall k: nat :: k in SelectedSounds(strips) <==> k < |strips| && IsSelectedSound(strips[k])
  {
    SelectedSoundsUpToMembers(strips, |strips|);
  }

  /** Looking further never loses a selected sound strip. */
  lemma {:induction false} SelectedSoundsUpToGrows(strips: seq<Strip>, i: nat, j: nat)
    requires i <= j <= |strips|
    ensures |SelectedSoundsUpTo(strips, i)| <= |SelectedSoundsUpTo(strips, j)|
  {
    if i < j {
      SelectedSoundsUpToGrows(strips, i, j - 1);
    }
  }

  /** The operator's selection loop from index `i` on, with the two slots
      `first` (seq1) and `second` (seq2) filled so far: the first match fills
      `first`, the second fills `second`, and a third empties `second` and
      stops the loop. */
  function Scan(strips: seq<Strip>, i: nat, first: Option<nat>, second: Option<nat>): (r: (Option<nat>, Option<nat>))
    requires i <= |strips|
    requires first.Some? ==> first.value < i
    requires second.Some? ==> first.Some? && first.value < second.value < i
    ensures r.0.Some? ==> r.0.value < |strips|
    ensures r.1.Some? ==> r.0.Some? && r.0.value < r.1.value < |strips|
    decreases |strips| - i
  {
    if i == |strips| then (first, second)
    else if IsSelectedSound(strips[i]) then
      if first.None? then Scan(strips, i + 1, Some(i), second)
      else if second.None? then Scan(strips, i + 1, first, Some(i))
      else (first, None)
    else Scan(strips, i + 1, first, second)
  }

  /** The loop finds a pair exactly when there are exactly two selected sound
      strips, and then it finds those two in list order. */
  lemma {:induction false} ScanFindsPair(strips: seq<Strip>, i: nat, first: Option<nat>, second: Option<nat>)
    requires i <= |strips|
    requires var m := SelectedSoundsUpTo(strips, i);
             && |m| <= 2
             && first == (if |m| >= 1 then Some(m[0]) else None)
             && second == (if |m| == 2 then Some(m[1]) else None)
    ensures var ss := SelectedSounds(strips);
            var r := Scan(strips, i, first, second);
            && (r.1.Some? <==> |ss| == 2)
            && (|ss| == 2 ==> r == (Some(ss[0]), Some(ss[1])))
    decreases |strips| - i
  {
    if i < |strips| {
      var m := SelectedSoundsUpTo(strips, i);
      var m' := SelectedSoundsUpTo(strips, i + 1);
      if IsSelectedSound(strips[i]) {
        assert m' == m + [i];
        if first.None? {
          ScanFindsPair(strips, i + 1, Some(i), second);
        } else if second.None? {
          ScanFindsPair(strips, i + 1, first, Some(i));
        } else {
          SelectedSoundsUpToGrows(strips, i + 1, |strips|);
        }
      } else {
        ScanFindsPair(strips, i + 1, first, second);
      }
    }
  }

  /** Two strips overlap when their frame ranges [start, end) intersect. */
  predicate Overlaps(a: Strip, b: Strip) {
    a.start < b.end && b.start < a.end
  }

  /** The operator: pick the two selected sound strips, order them by start
      frame, and if they overlap key the earlier one's volume from its current
      value down to 0 and the later one's from 0 up to its current value over
      the overlap. The current frame is put back afterwards. */
  function CrossfadeSounds(sc: Scene): (r: Outcome)
    ensures r.status == Cancelled(NotTwoSoundStrips) <==> |SelectedSounds(sc.strips)| != 2
    ensures r.status.Cancelled? ==> r.scene == sc
    ensures r.scene.frame == sc.frame
    ensures |r.scene.strips| == |sc.strips|
  {
    ScanFindsPair(sc.strips, 0, None, None);
    var (seq1, seq2) := Scan(sc.strips, 0, None, None);
    if seq2.None? then Outcome(Cancelled(NotTwoSoundStrips), sc)
    else
      var strips := sc.strips;
      var (a, b) :=
        if strips[seq1.value].start > strips[seq2.value].start
        then (seq2.value, seq1.value) else (seq1.value, seq2.value);
      if strips[a].end > strips[b].start then
        var tempFrame := sc.frame;
        var s1 := SetFrame(sc, strips[b].start);
        var s2 := InsertKey(s1, a, Volume);
        var s3 := SetFrame(s2, strips[a].end);
        var s4 := SetValue(s3, a, Volume, 0.0);
        var s5 := InsertKey(s4, a, Volume);
        var s6 := InsertKey(s5, b, Volume);
        var s7 := SetFrame(s6, strips[b].start);
        var s8 := SetValue(s7, b, Volume, 0.0);
        var s9 := InsertKey(s8, b, Volume);
        Outcome(Finished, SetFrame(s9, tempFrame))
      else
        Outcome(Cancelled(NoOverlap), sc)
  }

  /** With exactly two selected sound strips, the operator finishes exactly
      when they overlap, and otherwise cancels with the overlap error. */
  lemma CrossfadeNeedsOverlap(sc: Scene)
    requires |SelectedSounds(sc.strips)| == 2
    requires forall s :: s in sc.strips ==> WellFormed(s)
    ensures var ss := SelectedSounds(sc.strips);
            var r := CrossfadeSounds(sc);
            && (r.status == Finished <==> Overlaps(sc.strips[ss[0]], sc.strips[ss[1]]))
            && (r.status == Cancelled(NoOverlap) <==> !Overlaps(sc.strips[ss[0]], sc.strips[ss[1]]))
  {
    ScanFindsPair(sc.strips, 0, None, None);
    var ss := SelectedSounds(sc.strips);
    assert sc.strips[ss[0]] in sc.strips && sc.strips[ss[1]] in sc.strips;
  }

  /** A finished crossfade orders the pair by start frame (keeping list order
      on a tie) and inserts exactly four volume keyframes: the earlier strip
      at its current volume where the later one starts and at 0 where it
      ends itself, the later strip at its current volume where the earlier one
      ends and at 0 where it starts. Both volumes are left at 0; nothing else
      changes. */
  lemma CrossfadeKeyframes(sc: Scene)
    requires CrossfadeSounds(sc).status == Finished
    ensures var ss := SelectedSounds(sc.strips);
            && |ss| == 2
            && var (a, b) :=
                 if sc.strips[ss[1]].start < sc.strips[ss[0]].start then (ss[1], ss[0]) else (ss[0], ss[1]);
               var first, second := sc.strips[a], sc.strips[b];
               var r := CrossfadeSounds(sc).scene;
               && first.start <= second.start < first.end
               && r.keys == sc.keys + [
                    Keyframe(a, Volume, second.start, first.volume),
                    Keyframe(a, Volume, first.end, 0.0),
                    Keyframe(b, Volume, first.end, second.volume),
                    Keyframe(b, Volume, second.start, 0.0)]
               && r.strips == sc.strips[a := first.(volume := 0.0)][b := second.(volume := 0.0)]
               && r.frame == sc.frame
  {
    ScanFindsPair(sc.strips, 0, None, None);
  }
}

=== FILE: deinterlace.dfy ===
/** The deinterlace operator: switch deinterlacing on for every selected
    movie strip, including strips inside meta strips. */
module Deinterlace {
  import opened Timeline

  predicate IsSelectedMovie(s: Strip) {
    s.select && s.kind == Movie
  }

  /** The operator's loop over every strip: selected movie strips get the
      deinterlace flag, every other strip and every other field is left as
      it was. */
  function MarkSelectedMovies(strips: seq<Strip>): (r: seq<Strip>)
    ensures |r| == |strips|
    ensures forall i :: 0 <= i < |strips| ==>
              r[i].useDeinterlace == (strips[i].useDeinterlace || IsSelectedMovie(strips[i]))
    ensures forall i :: 0 <= i < |strips| ==>
              r[i] == strips[i].(useDeinterlace := r[i].useDeinterlace)
  {
    if strips == [] then []
    else
      var s := strips[0];
      [if IsSelectedMovie(s) then s.(useDeinterlace := true) else s] + MarkSelectedMovies(strips[1..])
  }

  /** The operator always finishes and touches nothing but the strips. */
  function DeinterlaceSelectedMovies(sc: Scene): (r: Outcome)
    ensures r.status == Finished
    ensures r.scene.frame == sc.frame && r.scene.keys == sc.keys
    ensures |r.scene.strips| == |sc.strips|
    ensures forall i :: 0 <= i < |sc.strips| && IsSelectedMovie(sc.strips[i]) ==>
              r.scene.strips[i].useDeinterlace
    ensures forall i :: 0 <= i < |sc.strips| ==>
              r.scene.strips[i] == sc.strips[i].(useDeinterlace := r.scene.strips[i].useDeinterlace)
    ensures forall i :: 0 <= i < |sc.strips| && !IsSelectedMovie(sc.strips[i]) ==>
              r.scene.strips[i] == sc.strips[i]
  {
    Outcome(Finished, sc.(strips := MarkSelectedMovies(sc.strips)))
  }

  /** Running the operator a second time changes nothing. */
  lemma {:induction false} MarkSelectedMoviesIdempotent(strips: seq<Strip>)
    ensures MarkSelectedMovies(MarkSelectedMovies(strips)) == MarkSelectedMovies(strips)
  {
    if strips != [] {
      MarkSelectedMoviesIdempotent(strips[1..]);
    }
  }
}

=== FILE: fade.dfy ===
/** The fade operator: key a fade in, a fade out, or both on the active
    strip, on its volume when it is a sound strip and on its blend alpha
    otherwise. The two playhead modes take the fade length from the current
    frame. The operator's direction and the current frame are put back
    afterwards; its duration keeps the value the run computed. */
module Fade {
  import opened Timeline

  /** The operator's Direction choices. */
  datatype FadeMode = In | Out | InOut | InPlayhead | OutPlayhead

  /** The settings a run works with. `mode` is the operator instance's own
      `mode` attribute, which the run sets from the Direction, rewrites for
      the playhead directions and restores at the end; the Direction property
      itself is never written. `duration` is the operator's Duration property
      and `amount` its Amount property. */
  datatype FadeProps = FadeProps(mode: FadeMode, duration: int, amount: real)

  /** A fade run: status, the scene afterwards and the settings afterwards. */
  datatype FadeOutcome = FadeOutcome(status: Status, scene: Scene, props: FadeProps)

  /** The bounds the Duration property is declared with. */
  const MinDuration := 1
  const MaxDuration := 250

  /** Assigning the Duration property: the host clamps the value into the
      property's declared range. */
  function StoreDuration(x: int): (r: int)
    ensures MinDuration <= r <= MaxDuration
    ensures MinDuration <= x <= MaxDuration ==> r == x
    ensures x < MinDuration ==> r == MinDuration
    ensures x > MaxDuration ==> r == MaxDuration
  {
    if x < MinDuration then MinDuration else if x > MaxDuration then MaxDuration else x
  }

  /** Assigning the Amount property: the host clamps the value into the
      property's declared range 0.0..1.0, which lies inside the ranges of
      both keyed properties, so the later writes keep it. */
  function StoreAmount(x: real): (r: real)
    ensures 0.0 <= r <= 1.0
    ensures 0.0 <= x <= 1.0 ==> r == x
    ensures x < 0.0 ==> r == 0.0
    ensures x > 1.0 ==> r == 1.0
  {
    if x < 0.0 then 0.0 else if x > 1.0 then 1.0 else x
  }

  /** Sound strips fade their volume, every other strip its blend alpha. */
  function PropertyFor(kind: StripType): (p: Property)
    ensures p == Volume <==> kind == Sound
    ensures p == BlendAlpha <==> kind != Sound
  {
    if kind == Sound then Volume else BlendAlpha
  }

  /** `int(x / 2)`: true division followed by truncation toward zero. */
  function TruncHalf(x: int): (r: int)
    ensures x >= 0 ==> 0 <= 2 * r <= x < 2 * r + 2
    ensures x < 0 ==> 2 * r - 2 < x <= 2 * r <= 0
  {
    if x >= 0 then x / 2 else -((-x) / 2)
  }

  /** With the playhead strictly inside the strip, "fade to playhead" becomes
      a fade in ending at the playhead and "fade from playhead" a fade out
      starting there (unless the distance exceeds the largest Duration).
      Any other combination leaves the settings alone. */
  function ResolvePlayhead(props: FadeProps, frame: int, strip: Strip): (r: FadeProps)
    ensures r.amount == props.amount
    ensures props.mode != InPlayhead && props.mode != OutPlayhead ==> r == props
    ensures !(strip.start < frame < strip.end) ==> r == props
    ensures strip.start < frame < strip.end && props.mode == InPlayhead ==>
              && r.mode == In
              && r.duration == StoreDuration(frame - strip.start)
              && (frame - strip.start <= MaxDuration ==> strip.start + r.duration == frame)
    ensures strip.start < frame < strip.end && props.mode == OutPlayhead ==>
              && r.mode == Out
              && r.duration == StoreDuration(strip.end - frame)
              && (strip.end - frame <= MaxDuration ==> strip.end - r.duration == frame)
  {
    if frame > strip.start && frame < strip.end then
      if props.mode == InPlayhead then props.(duration := StoreDuration(frame - strip.start), mode := In)
      else if props.mode == OutPlayhead then props.(duration := StoreDuration(strip.end - frame), mode := Out)
      else props
    else props
  }

  /** Key value `v` on property `p` of strip `i` at frame `f`: move the
      playhead, assign the property, insert a keyframe. The keyframe records
      the assigned value, and the strip keeps it. */
  function KeyAt(sc: Scene, i: nat, p: Property, f: int, v: real): (r: Scene)
    requires i < |sc.strips|
    ensures r.frame == f
    ensures r.keys == sc.keys + [Keyframe(i, p, f, v)]
    ensures r.strips == sc.strips[i := WithValue(sc.strips[i], p, v)]
  {
    InsertKey(SetValue(SetFrame(sc, f), i, p, v), i, p)
  }

  /** A fade in: 0 at the strip's start, rising to `amount` `d` frames later. */
  predicate RisesFromStart(a: Keyframe, b: Keyframe, s: Strip, d: int, amount: real) {
    a.frame == s.start && a.value == 0.0 && b.frame == a.frame + d && b.value == amount
  }

  /** A fade out: `amount` `d` frames before the strip's end, falling to 0 there. */
  predicate FallsToEnd(a: Keyframe, b: Keyframe, s: Strip, d: int, amount: real) {
    b.frame == s.end && b.value == 0.0 && a.frame == b.frame - d && a.value == amount
  }

  /** The fade-in half of a branch: key 0 at the strip's start, then
      advance the playhead by `d` and key the amount. */
  function KeyFadeIn(sc: Scene, i: nat, p: Property, d: int, amount: real): (r: Scene)
    requires i < |sc.strips|
    ensures |r.keys| == |sc.keys| + 2 && r.keys[..|sc.keys|] == sc.keys
    ensures r.keys[|sc.keys|].strip == i && r.keys[|sc.keys|].property == p
    ensures r.keys[|sc.keys| + 1].strip == i && r.keys[|sc.keys| + 1].property == p
    ensures RisesFromStart(r.keys[|sc.keys|], r.keys[|sc.keys| + 1], sc.strips[i], d, amount)
    ensures r.strips == sc.strips[i := WithValue(sc.strips[i], p, amount)]
  {
    var s1 := KeyAt(sc, i, p, sc.strips[i].start, 0.0);
    KeyAt(s1, i, p, s1.frame + d, amount)
  }

  /** The fade-out half of a branch: key the amount `d` frames before the
      strip's end, then 0 at the end. */
  function KeyFadeOut(sc: Scene, i: nat, p: Property, d: int, amount: real): (r: Scene)
    requires i < |sc.strips|
    ensures |r.keys| == |sc.keys| + 2 && r.keys[..|sc.keys|] == sc.keys
    ensures r.keys[|sc.keys|].strip == i && r.keys[|sc.keys|].property == p
    ensures r.keys[|sc.keys| + 1].strip == i && r.keys[|sc.keys| + 1].property == p
    ensures FallsToEnd(r.keys[|sc.keys|], r.keys[|sc.keys| + 1], sc.strips[i], d, amount)
    ensures r.strips == sc.strips[i := WithValue(sc.strips[i], p, 0.0)]
  {
    var s1 := KeyAt(sc, i, p, sc.strips[i].end - d, amount);
    KeyAt(s1, i, p, sc.strips[i].end, 0.0)
  }

  /** The keyframe placement of one branch (sound or not): a fade out keys
      the end, a fade in and out keys the start and then the end, and every
      other direction (a fade in, or a playhead direction left unresolved)
      keys the start. Only strip `i`'s property `p` is keyed, and the strip
      is left at the value of its last key. */
  function PlaceKeys(sc: Scene, i: nat, p: Property, props: FadeProps): (r: Scene)
    requires i < |sc.strips|
    ensures |r.keys| == |sc.keys| + (if props.mode == InOut then 4 else 2)
    ensures r.keys[..|sc.keys|] == sc.keys
    ensures forall j :: |sc.keys| <= j < |r.keys| ==> r.keys[j].strip == i && r.keys[j].property == p
    ensures var n, s, d, a := |sc.keys|, sc.strips[i], props.duration, props.amount;
            && (props.mode == Out ==> FallsToEnd(r.keys[n], r.keys[n + 1], s, d, a))
            && (props.mode == InOut ==>
                  RisesFromStart(r.keys[n], r.keys[n + 1], s, d, a)
                  && FallsToEnd(r.keys[n + 2], r.keys[n + 3], s, d, a))
            && (props.mode != Out && props.mode != InOut ==> RisesFromStart(r.keys[n], r.keys[n + 1], s, d, a))
    ensures r.strips == sc.strips[i := WithValue(sc.strips[i], p, r.keys[|r.keys| - 1].value)]
  {
    match props.mode
    case Out => KeyFadeOut(sc, i, p, props.duration, props.amount)
    case InOut =>
      var s1 := KeyFadeIn(sc, i, p, props.duration, props.amount);
      var r := KeyFadeOut(s1, i, p, props.duration, props.amount);
      assert s1.strips[i].start == sc.strips[i].start && s1.strips[i].end == sc.strips[i].end;
      assert r.keys[..|s1.keys|] == s1.keys;
      r
    case _ => KeyFadeIn(sc, i, p, props.duration, props.amount)
  }

  /** The sound branch shortens a fade in and out that would not fit twice
      into the strip to half the strip's length (as stored into Duration);
      every other case keeps the settings. */
  function ClampForSound(props: FadeProps, strip: Strip): (r: FadeProps)
    ensures r.mode == props.mode && r.amount == props.amount
    ensures !(strip.kind == Sound && props.mode == InOut && 2 * props.duration > strip.end - strip.start) ==>
              r == props
    ensures strip.kind == Sound && props.mode == InOut && 2 * props.duration > strip.end - strip.start ==>
              r.duration == StoreDuration(TruncHalf(strip.end - strip.start))
    ensures strip.kind == Sound && props.mode == InOut && strip.end - strip.start >= 2 && props.duration >= 0 ==>
              0 <= 2 * r.duration <= strip.end - strip.start
  {
    if strip.kind == Sound && props.mode == InOut && props.duration * 2 > strip.end - strip.start
    then props.(duration := StoreDuration(TruncHalf(strip.end - strip.start)))
    else props
  }

  /** The operator run on the active strip with the chosen direction,
      duration and amount. It always finishes, keys only the active strip's
      faded property, leaves that strip at its last keyed value, and puts the
      mode and the current frame back. */
  function FadeInOut(sc: Scene, active: nat, mode: FadeMode, duration: int, amount: real): (r: FadeOutcome)
    requires active < |sc.strips|
    ensures r.status == Finished
    ensures r.props.mode == mode && r.props.amount == StoreAmount(amount)
    ensures MinDuration <= r.props.duration <= MaxDuration
    ensures r.scene.frame == sc.frame
    ensures |r.scene.keys| == |sc.keys| + (if mode == InOut then 4 else 2)
    ensures r.scene.keys[..|sc.keys|] == sc.keys
    ensures forall j :: |sc.keys| <= j < |r.scene.keys| ==>
              r.scene.keys[j].strip == active && r.scene.keys[j].property == PropertyFor(sc.strips[active].kind)
    ensures var last := r.scene.keys[|r.scene.keys| - 1];
            r.scene.strips == sc.strips[active := WithValue(sc.strips[active], last.property, last.value)]
  {
    var strip := sc.strips[active];
    var tempFrame := sc.frame;
    var requested := FadeProps(mode, StoreDuration(duration), StoreAmount(amount));
    var resolved := ResolvePlayhead(requested, tempFrame, strip);
    var props := ClampForSound(resolved, strip);
    var placed := PlaceKeys(sc, active, PropertyFor(strip.kind), props);
    FadeOutcome(Finished, SetFrame(placed, tempFrame), props.(mode := mode))
  }

  /** A fade in keys 0 at the strip's start and the amount `d` frames
      later, `d` being the duration as stored (the requested one when it is
      within the declared bounds). */
  lemma FadeInKeys(sc: Scene, active: nat, duration: int, amount: real)
    requires active < |sc.strips|
    ensures var s := sc.strips[active];
            var p := PropertyFor(s.kind);
            var d := StoreDuration(duration);
            var r := FadeInOut(sc, active, In, duration, amount);
            && r.scene.keys == sc.keys + [
                 Keyframe(active, p, s.start, 0.0),
                 Keyframe(active, p, s.start + d, StoreAmount(amount))]
            && r.props.duration == d
            && (MinDuration <= duration <= MaxDuration ==> d == duration)
  {
  }

  /** A fade out keys the amount `d` frames before the strip's end and 0 at
      the end. */
  lemma FadeOutKeys(sc: Scene, active: nat, duration: int, amount: real)
    requires active < |sc.strips|
    ensures var s := sc.strips[active];
            var p := PropertyFor(s.kind);
            var d := StoreDuration(duration);
            var r := FadeInOut(sc, active, Out, duration, amount);
            && r.scene.keys == sc.keys + [
                 Keyframe(active, p, s.end - d, StoreAmount(amount)),
                 Keyframe(active, p, s.end, 0.0)]
            && r.props.duration == d
  {
  }

  /** With the playhead inside the strip, "fade to playhead" is a fade in
      from the strip's start; it reaches the amount exactly at the playhead
      unless the playhead is more than the largest Duration past the start,
      in which case the fade is cut to that largest Duration. */
  lemma FadeToPlayhead(sc: Scene, active: nat, duration: int, amount: real)
    requires active < |sc.strips|
    requires sc.strips[active].start < sc.frame < sc.strips[active].end
    ensures var s := sc.strips[active];
            var p := PropertyFor(s.kind);
            var d := StoreDuration(sc.frame - s.start);
            var r := FadeInOut(sc, active, InPlayhead, duration, amount);
            && r.scene.keys == sc.keys + [
                 Keyframe(active, p, s.start, 0.0),
                 Keyframe(active, p, s.start + d, StoreAmount(amount))]
            && r.props == FadeProps(InPlayhead, d, StoreAmount(amount))
            && (sc.frame - s.start <= MaxDuration ==> s.start + d == sc.frame)
            && (sc.frame - s.start > MaxDuration ==> s.start + d < sc.frame)
  {
  }

  /** With the playhead inside the strip, "fade from playhead" is a fade out
      reaching 0 at the strip's end; it starts exactly at the playhead unless
      the playhead is more than the largest Duration before the end. */
  lemma FadeFromPlayhead(sc: Scene, active: nat, duration: int, amount: real)
    requires active < |sc.strips|
    requires sc.strips[active].start < sc.frame < sc.strips[active].end
    ensures var s := sc.strips[active];
            var p := PropertyFor(s.kind);
            var d := StoreDuration(s.end - sc.frame);
            var r := FadeInOut(sc, active, OutPlayhead, duration, amount);
            && r.scene.keys == sc.keys + [
                 Keyframe(active, p, s.end - d, StoreAmount(amount)),
                 Keyframe(active, p, s.end, 0.0)]
            && r.props == FadeProps(OutPlayhead, d, StoreAmount(amount))
            && (s.end - sc.frame <= MaxDuration ==> s.end - d == sc.frame)
            && (s.end - sc.frame > MaxDuration ==> s.end - d > sc.frame)
  {
  }

  /** With the playhead not strictly inside the strip, both playhead modes
      do exactly what a plain fade in with the given duration does, even
      "fade from playhead". */
  lemma PlayheadOutsideFadesIn(sc: Scene, active: nat, mode: FadeMode, duration: int, amount: real)
    requires active < |sc.strips|
    requires mode == InPlayhead || mode == OutPlayhead
    requires !(sc.strips[active].start < sc.frame < sc.strips[active].end)
    ensures var r := FadeInOut(sc, active, mode, duration, amount);
            var plain := FadeInOut(sc, active, In, duration, amount);
            && r.scene == plain.scene
            && r.props == plain.props.(mode := mode)
  {
  }

  /** A fade in and out on a sound strip keys 0, the amount, the amount and
      0 at the strip's start, `d` frames later, `d` frames before the end and
      the end, where `d` is the stored duration, replaced by half the strip
      when twice it does not fit. The four frames never decrease exactly when
      the strip is at least two frames long: on a shorter strip half its
      length is 0, which the Duration bounds turn into 1. */
  lemma SoundInOutOrdered(sc: Scene, active: nat, duration: int, amount: real)
    requires active < |sc.strips|
    requires sc.strips[active].kind == Sound
    requires sc.strips[active].start <= sc.strips[active].end
    ensures var s := sc.strips[active];
            var len := s.end - s.start;
            var requested := StoreDuration(duration);
            var r := FadeInOut(sc, active, InOut, duration, amount);
            var d := r.props.duration;
            && (2 * requested <= len ==> d == requested)
            && (2 * requested > len ==> d == StoreDuration(len / 2))
            && r.scene.keys == sc.keys + [
                 Keyframe(active, Volume, s.start, 0.0),
                 Keyframe(active, Volume, s.start + d, StoreAmount(amount)),
                 Keyframe(active, Volume, s.end - d, StoreAmount(amount)),
                 Keyframe(active, Volume, s.end, 0.0)]
            && (s.start <= s.start + d <= s.end - d <= s.end <==> len >= 2)
  {
  }

  /** A fade in and out on any other strip keeps the stored duration, so
      when twice the duration exceeds the strip's length the fade-in's
      second key lands after the fade-out's first. */
  lemma VisualInOutUnclamped(sc: Scene, active: nat, duration: int, amount: real)
    requires active < |sc.strips|
    requires sc.strips[active].kind != Sound
    ensures var s := sc.strips[active];
            var d := StoreDuration(duration);
            var r := FadeInOut(sc, active, InOut, duration, amount);
            && r.props.duration == d
            && r.scene.keys == sc.keys + [
                 Keyframe(active, BlendAlpha, s.start, 0.0),
                 Keyframe(active, BlendAlpha, s.start + d, StoreAmount(amount)),
                 Keyframe(active, BlendAlpha, s.end - d, StoreAmount(amount)),
                 Keyframe(active, BlendAlpha, s.end, 0.0)]
            && (2 * d > s.end - s.start ==> r.scene.keys[|sc.keys| + 1].frame > r.scene.keys[|sc.keys| + 2].frame)
  {
  }
}

=== FILE: multicam.dfy ===
/** The multicam cut operator, up to the cut itself: the guard that makes
    it a no-op and the selection of the active strip before the cut. */
module Multicam {
  import opened Timeline

  /** What the operator does before calling the host's cut: either it stops
      and changes nothing, or it goes on to cut `strip` (the active strip,
      now selected) at `frame`, the current frame. The operator reports
      FINISHED on both paths, so no status is carried. */
  datatype MulticamStep = NoChange | CutAt(strip: Strip, frame: int)

  /** The guard and the preparation for the cut. Choosing the camera the
      strip already shows, or a camera on the strip's own channel or above
      it, does nothing; otherwise the strip is selected and nothing else about
      it changes. */
  function PrepareCut(s: Strip, camera: int, frame: int): (r: MulticamStep)
    ensures r == NoChange <==> s.multicamSource == camera || camera >= s.channel
    ensures r.CutAt? ==> r.strip.select && r.frame == frame
    ensures r.CutAt? ==> r.strip.(select := s.select) == s
  {
    if s.multicamSource == camera || camera >= s.channel then NoChange
    else CutAt(if !s.select then s.(select := true) else s, frame)
  }

  /** The operator's last step: the strip that is active after the cut is
      switched to the chosen camera. */
  function AssignCamera(s: Strip, camera: int): (r: Strip)
    ensures r.multicamSource == camera
    ensures r.(multicamSource := s.multicamSource) == s
  {
    s.(multicamSource := camera)
  }

  /** Running the operator again with the same camera on the strip it just
      switched is a no-op. */
  lemma RepeatIsNoChange(s: Strip, camera: int, frame: int)
    ensures PrepareCut(AssignCamera(s, camera), camera, frame) == NoChange
  {
  }
}

=== FILE: timeline.dfy ===
/** The slice of the video sequence editor's scene that the sequencer
    operators read and write: the strips, the scene's current frame and the
    keyframes recorded so far. Animated values (volume, blend alpha, fade
    amount) are carried as `real`s that are only ever copied or zeroed. */
module Timeline {

  /** The strip types the operators distinguish; `Other` stands for every
      remaining type (image, scene, effect, ...), never for one named here. */
  datatype StripType = Sound | Movie | Multicam | Other

  /** One strip. `start`/`end` are the strip's final start and end frames;
      `topLevel` says whether the strip is in the editor's top-level list
      (as opposed to only inside a meta strip). */
  datatype Strip = Strip(
    kind: StripType,
    select: bool,
    topLevel: bool,
    start: int,
    end: int,
    channel: int,
    multicamSource: int,
    useDeinterlace: bool,
    volume: real,
    blendAlpha: real)

  /** The two animatable properties the operators key. */
  datatype Property = Volume | BlendAlpha

  /** A recorded keyframe: which strip (by index), which property, at which
      frame, with which value. */
  datatype Keyframe = Keyframe(strip: nat, property: Property, frame: int, value: real)

  /** The scene: strips, the current frame (the cursor the operators move)
      and the keyframes inserted so far, oldest first. */
  datatype Scene = Scene(strips: seq<Strip>, frame: int, keys: seq<Keyframe>)

  /** Operator return value; a cancelled run carries the reported error. */
  datatype Error = NotTwoSoundStrips | NoOverlap
  datatype Status = Finished | Cancelled(reason: Error)

  /** What an operator run leaves behind: its status and the scene. */
  datatype Outcome = Outcome(status: Status, scene: Scene)

  datatype Option<T> = None | Some(value: T)

  /** The host guarantees every strip is at least one frame long. */
  predicate WellFormed(s: Strip) {
    s.start < s.end
  }

  function Value(s: Strip, p: Property): real {
    match p
    case Volume => s.volume
    case BlendAlpha => s.blendAlpha
  }

  /** The strip with property `p` set to `v` and everything else kept. */
  function WithValue(s: Strip, p: Property, v: real): (r: Strip)
    ensures Value(r, p) == v
    ensures forall q :: q != p ==> Value(r, q) == Value(s, q)
    ensures r.(volume := s.volume, blendAlpha := s.blendAlpha) == s
  {
    match p
    case Volume => s.(volume := v)
    case BlendAlpha => s.(blendAlpha := v)
  }

  /** Moving the playhead: `scene.frame_current = f`. */
  function SetFrame(sc: Scene, f: int): (r: Scene)
    ensures r.frame == f
    ensures r.strips == sc.strips && r.keys == sc.keys
  {
    sc.(frame := f)
  }

  /** Assigning a strip's property: `strip.volume = v` / `strip.blend_alpha = v`. */
  function SetValue(sc: Scene, i: nat, p: Property, v: real): (r: Scene)
    requires i < |sc.strips|
    ensures |r.strips| == |sc.strips|
    ensures Value(r.strips[i], p) == v
    ensures forall j :: 0 <= j < |sc.strips| && j != i ==> r.strips[j] == sc.strips[j]
    ensures r.strips[i] == WithValue(sc.strips[i], p, v)
    ensures r.frame == sc.frame && r.keys == sc.keys
  {
    sc.(strips := sc.strips[i := WithValue(sc.strips[i], p, v)])
  }

  /** `strip.keyframe_insert(p)`: record the property's current value at
      the current frame. */
  function InsertKey(sc: Scene, i: nat, p: Property): (r: Scene)
    requires i < |sc.strips|
    ensures r.keys == sc.keys + [Keyframe(i, p, sc.frame, Value(sc.strips[i], p))]
    ensures r.strips == sc.strips && r.frame == sc.frame
  {
    sc.(keys := sc.keys + [Keyframe(i, p, sc.frame, Value(sc.strips[i], p))])
  }
}
